=== FILE: README.md ===
# To-do app core, modelled in Dafny

A model of the logic of a single-user, browser-local to-do application: the
task store and its four mutations (add, update, delete, toggle completion),
the derived view (free-text search, status tab, tab badges), the display
sort and statistics of the task list, the per-task overdue flag and
two-step delete confirmation, and the entry form's submit and cancel
actions. Everything is a pure function over immutable values; the React
state hooks become explicit state records, and each handler becomes a
function from the old state to the new one.

Modules, one per source component plus shared helpers:

- `Wrappers` (`wrappers.dfy`): `Option`, standing for fields that may be `undefined`.
- `Seqs` (`seqs.dfy`): order-preserving `Filter` (the model of `Array.prototype.filter`) and the subsequence relation.
- `Text` (`text.dfy`): `trim` over the ECMAScript white-space set, ASCII `toLowerCase`, and `includes`.
- `Tasks` (`tasks.dfy`): the `Task` record, priorities, status tabs, the intents components send to the application, and `IsOverdue`.
- `Store` (`store.dfy`): `src/App.jsx` handlers.
- `View` (`view.dfy`): `src/App.jsx` `filteredTasks` and `taskCounts`.
- `Display` (`display.dfy`): `src/components/TaskList.jsx` comparator, sort and statistics.
- `Item` (`item.dfy`): `src/components/TaskItem.jsx` buttons and delete confirmation.
- `Form` (`form.dfy`): `src/components/TaskForm.jsx` edit loading, submit and cancel.

Modelling choices:

- Due dates and ISO timestamps are integers, in milliseconds since the epoch. This is what `new Date(x).getTime()` yields.
- The clock is a `now` parameter, and `generateId` is a `freshId` parameter.
- Priorities are an enumeration, so the comparator's `priorityOrder` lookup is total.
- The form's date input is `Option<Time>`. `None` is the input's empty string.
- `toLowerCase` is modelled on ASCII letters only.
- `trim` strips exactly the ECMAScript WhiteSpace and LineTerminator code points.
- The display sort is insertion sort. Its contract says only that the output is sorted by the comparator and is a permutation of the input.
- The application always passes `onUpdateTask` to the form, so the form's `editingTask && onUpdateTask` test is modelled as "a task is being edited".

In these places the model follows the code as written:

- `handleUpdateTask` stores the task it is given unchanged. The update stamp is set by the form (`src/components/TaskForm.jsx:46`), not by the store.
- Delete removes every task with the id, not one entry.
- The comparator compares creation stamps only when neither task has a due date. Two dated tasks with the same due date compare equal (`Display.EqualDueDatesTie`). The stable `Array.prototype.sort` then keeps their list order, which is newest first for tasks added in the app. So this is recorded here and not as a defect.

## Model

| member | source | states |
|---|---|---|
| Seqs.Filter | src/App.jsx:110-114 | `filter` keeps every passing element with its full multiplicity, drops every other, and never grows the list |
| Seqs.SubsequenceRefl | src/App.jsx:106 | the unfiltered list is trivially an order-preserving selection of itself |
| Seqs.FilterIsSubsequence | src/App.jsx:110 | `filter` keeps the survivors in their original relative order |
| Seqs.FilterOfSubsequence | src/App.jsx:118-124 | filtering an ordered selection again still yields an ordered selection of the original list |
| Seqs.FilterAllPass | src/App.jsx:80 | a filter that every element passes returns the list unchanged |
| Seqs.FilterIdempotent | src/App.jsx:80 | filtering twice by the same test equals filtering once |
| Seqs.FilterPartition | src/App.jsx:144-145 | a test and its negation split a list into parts whose sizes add up to its length |
| Seqs.FilterDisjoint | src/components/TaskList.jsx:60-63 | two tests that never hold together select at most the list's length between them |
| Seqs.FilterCountPermutation | src/components/TaskList.jsx:60-63 | the number of elements passing a test does not depend on the list's order |
| Text.IsSpace | src/components/TaskForm.jsx:31-38 | definition, no contract: the ECMAScript WhiteSpace and LineTerminator code points that `trim` removes; its laws are stated by `Text.TrimStart`, `Text.TrimEnd` and `Text.TrimIsInfix` |
| Text.TrimStart | src/components/TaskForm.jsx:34 | the result is a suffix of the input, starts with a non-space, and everything removed was white space |
| Text.TrimEnd | src/components/TaskForm.jsx:34 | the result is a prefix of the input, ends with a non-space, and everything removed was white space |
| Text.Trim | src/components/TaskForm.jsx:31 | `trim` yields a string with no white space at either end and never lengthens its input |
| Text.TrimStrips | src/components/TaskForm.jsx:34 | `trim` keeps exactly the infix that begins where the leading white space ends and is followed only by white space |
| Text.TrimIsInfix | src/components/TaskForm.jsx:38 | `trim` keeps the infix between a white-space prefix and suffix, and is empty exactly for blank input |
| Text.TrimTrimmed | src/components/TaskForm.jsx:34-35 | trimming an already trimmed string changes nothing |
| Text.TrimIdempotent | src/components/TaskForm.jsx:34-38 | trimming twice equals trimming once |
| Text.LowerChar | src/App.jsx:111 | upper-case ASCII letters map to their lower-case letters and every other character is kept |
| Text.Lower | src/App.jsx:111 | lowercasing keeps the length, maps each character, and leaves no upper-case ASCII letter |
| Text.LowerOfLowercase | src/App.jsx:111 | a string with no upper-case letters is its own lower case |
| Text.LowerIdempotent | src/App.jsx:111 | lowercasing twice equals lowercasing once |
| Text.Includes | src/App.jsx:111-113 | `includes` holds exactly when the needle occurs at some position of the haystack |
| Text.IncludesAt | src/App.jsx:111-113 | a needle found at any position is included |
| Text.IncludesSuffix | src/App.jsx:111-113 | a string includes every suffix of itself |
| Text.IncludesEmpty | src/App.jsx:109-111 | every string includes the empty string |
| Tasks.Rank | src/components/TaskList.jsx:44 | priority weights are 1 to 3, with high the only 3 and low the only 1 |
| Tasks.IsOverdue | src/components/TaskItem.jsx:13 | definition, no contract: open, dated, and due strictly before the clock; the same test `overdueCount` uses at src/components/TaskList.jsx:61-63; its laws are stated by `Tasks.OverdueNeedsOpenDatedTask` and `Display.OverdueCountCountsOverdueTasks` |
| Tasks.OverdueNeedsOpenDatedTask | src/components/TaskItem.jsx:13 | a completed task and an undated task are never overdue, and an overdue task stays overdue as time passes |
| Store.NewTask | src/App.jsx:59-64 | a new task carries the submitted fields, the fresh id, and creation and update stamps equal to the clock |
| Store.AddTask | src/App.jsx:58-66 | adding yields a list one longer whose head is the new task and whose tail is the old list |
| Store.UpdateTask | src/App.jsx:69-74 | update keeps length and positions and replaces exactly the entries whose id matches the updated task |
| Store.DeleteTask | src/App.jsx:79-81 | after delete no task has the id, and every task with another id keeps its multiplicity |
| Store.Toggled | src/App.jsx:88 | toggling one task flips `completed`, sets the update stamp, and changes no other field |
| Store.ToggleComplete | src/App.jsx:84-92 | toggle keeps length and order and changes exactly the tasks with the id |
| Store.Dispatch | src/App.jsx:57-102 | add, update, delete and toggle change the list exactly as their handlers do; no handler touches the tab or the search term; update and cancel clear the edit marker, edit sets it, and edit and cancel leave the list alone |
| Store.DispatchAll | src/App.jsx:57-102 | a sequence of handlers, each with its own clock reading and fresh id, never changes the tab or the search term |
| Store.DeleteAbsent | src/App.jsx:79-81 | deleting an id absent from the list leaves it unchanged |
| Store.DeleteTwice | src/App.jsx:79-81 | deleting the same id twice equals deleting it once |
| Store.DeleteKeepsOrder | src/App.jsx:80 | delete keeps the remaining tasks in their original relative order and leaves none with the id |
| Store.DeleteUniqueShrinksByOne | src/App.jsx:80 | with unique ids, deleting a present id removes exactly one task |
| Store.DeleteUndoesAdd | src/App.jsx:58-81 | deleting the id of a freshly added task restores the previous list |
| Store.ToggleAbsent | src/App.jsx:84-92 | toggling an id absent from the list leaves it unchanged |
| Store.ToggleTwice | src/App.jsx:84-92 | toggling twice restores every task except its update stamp |
| Store.UpdateAbsent | src/App.jsx:69-74 | updating with an id absent from the list leaves it unchanged |
| Store.UpdateIdempotent | src/App.jsx:69-74 | updating twice with the same task equals updating once |
| Store.UpdateKeepsIds | src/App.jsx:71-73 | update keeps every id in its position |
| Store.ToggleKeepsIds | src/App.jsx:86-89 | toggle keeps every id in its position |
| Store.DeleteKeepsUnique | src/App.jsx:79-81 | delete keeps ids pairwise distinct |
| Store.DispatchKeepsUniqueIds | src/App.jsx:58-92 | every handler keeps ids unique, provided add is given an id not yet in the list |
| View.MatchesSearch | src/App.jsx:110-114 | definition, no contract: the lower-cased term occurs in the lower-cased title, description or category, and an absent description or category never matches, as the `?.` guards do; its laws are stated by `View.SearchIgnoresTermCase`, `View.EmptyTermMatchesEverything`, `View.DescriptionMatchSelects` and `View.DescriptionEndMatches` |
| View.PassesStatus | src/App.jsx:118-127 | definition, no contract: `completed` keeps completed tasks, `pending` keeps open ones, and every other tab keeps all; its laws are stated by `View.ByStatus` and `View.FilteredTasks` |
| View.SearchFiltered | src/App.jsx:108-115 | the search keeps a task, with its multiplicity, exactly when the term is empty or matches it; the result is an ordered selection |
| View.ByStatus | src/App.jsx:118-127 | the tab keeps exactly the tasks of its status, each with its multiplicity; the `all` tab keeps every task |
| View.FilteredTasks | src/App.jsx:105-130 | the view holds exactly the tasks that pass both the search and the tab, with their multiplicity, and every shown task passes the tab |
| View.TaskCounts | src/App.jsx:133-147 | the `all` badge is the sum of the `completed` and `pending` badges and never exceeds the list |
| View.FilteredIsSubsequence | src/App.jsx:105-130 | the view is a subsequence of the task list |
| View.EmptySearchShowsAll | src/App.jsx:109 | with an empty term and the `all` tab the view is the whole list in order |
| View.EmptyTermMatchesEverything | src/App.jsx:109-114 | the empty term matches every task, so skipping the search for it changes no result |
| View.SearchIgnoresTermCase | src/App.jsx:111-113 | the search result does not depend on the case of the term |
| View.DescriptionMatchSelects | src/App.jsx:112 | a term found in the description selects the task, both for the search and for the task's own status tab |
| View.FoundAtEnd | src/App.jsx:111-113 | with no upper-case letters in play, a needle that ends a field is found by the case-folded `includes` |
| View.DescriptionEndMatches | src/App.jsx:110-114 | a lower-case term that ends a lower-case description, such as "bread" in "get bread", selects the task whatever its title |
| View.EmptySearchCountsAll | src/App.jsx:134-146 | without a term, `all` is the list length and `pending` is the rest after `completed` |
| View.FilteredLengthIsBadge | src/App.jsx:105-147 | the view's length equals the current tab's badge |
| View.BadgesIgnoreTab | src/App.jsx:133-147 | switching tabs changes no badge |
| View.DispatchKeepsViewInputs | src/App.jsx:105-147 | a handler that leaves the list alone changes neither the view nor the badges |
| Display.Compare | src/components/TaskList.jsx:37-58 | definition, no contract: open tasks first, then higher priority, then earlier due date, dated before undated, and newer first only when both are undated; its laws are stated by `Display.CompareAntisymmetric`, `Display.PrecedesTransitive`, `Display.EqualDueDatesTie` and `Display.IncompleteFirst` through `Display.NewerFirst` |
| Display.CompareAntisymmetric | src/components/TaskList.jsx:37-58 | swapping the comparator's arguments negates the sign of its result |
| Display.CompareReflexive | src/components/TaskList.jsx:37-58 | a task ties with itself |
| Display.PrecedesTotal | src/components/TaskList.jsx:37-58 | any two tasks are ordered one way or the other |
| Display.PrecedesTransitive | src/components/TaskList.jsx:37-58 | the comparator's order is transitive, so it is a total preorder |
| Display.StrictlyPrecedesTransitive | src/components/TaskList.jsx:37-58 | strict precedence is transitive |
| Display.EqualDueDatesTie | src/components/TaskList.jsx:50-51 | two dated tasks equal in completion, priority and due date tie, whatever their creation stamps |
| Display.Insert | src/components/TaskList.jsx:37 | inserting into a sorted list yields a sorted list holding exactly one more copy of the element |
| Display.SortForDisplay | src/components/TaskList.jsx:37 | the display order is sorted by the comparator and is a permutation of the input |
| Display.IncompleteFirst | src/components/TaskList.jsx:39-41 | in a sorted list every incomplete task comes before every completed one |
| Display.HigherPriorityFirst | src/components/TaskList.jsx:44-47 | with equal completion, higher priority comes first |
| Display.DatedBeforeUndated | src/components/TaskList.jsx:53-54 | with equal completion and priority, dated tasks come before undated ones |
| Display.EarlierDueFirst | src/components/TaskList.jsx:50-51 | with equal completion and priority, the earlier due date comes first |
| Display.NewerFirst | src/components/TaskList.jsx:57 | with equal completion and priority and neither dated, the newer task comes first |
| Display.DisplayOrderExample | src/components/TaskList.jsx:37-58 | high-priority tasks due on days 10 and 5, an undated medium one and a completed low one display as day 5, day 10, undated, completed |
| Display.CompletedCount | src/components/TaskList.jsx:60 | the completed count never exceeds the list |
| Display.CompletedCountCountsCompletedTasks | src/components/TaskList.jsx:60 | the completed count counts exactly the completed tasks of the list, with multiplicity |
| Display.OverdueCount | src/components/TaskList.jsx:61-63 | the overdue count never exceeds the list |
| Display.OverdueCountCountsOverdueTasks | src/components/TaskList.jsx:61-63 | the overdue count counts exactly the open tasks with a due date strictly before now, with multiplicity, using the row's overdue test |
| Display.CompletedAndOverdueDisjoint | src/components/TaskList.jsx:60-63 | completed and overdue counts together never exceed the list |
| Display.StatsIgnoreOrder | src/components/TaskList.jsx:37-63 | the statistics are the same over the list and over its display order |
| Item.NextOpen | src/components/TaskItem.jsx:41-52 | delete opens the confirmation, confirm and cancel close it, and the other buttons leave it alone |
| Item.Sent | src/components/TaskItem.jsx:71-197 | a click sends at most one intent; toggle sends a toggle of this row's id and edit sends an edit of this row's task; only confirm sends a delete, exactly one, naming this row's task; delete and cancel send nothing |
| Item.Run | src/components/TaskItem.jsx:41-52 | definition, no contract: a sequence of clicks threads the confirmation panel's state and collects what each click sends; its laws are stated by `Item.DeletesNeedConfirmation` and `Item.DeletesNameTheRow` |
| Item.CountDeletesAppend | src/components/TaskItem.jsx:46 | deletes sent by two runs of clicks add up |
| Item.DeletesNeedConfirmation | src/components/TaskItem.jsx:182-207 | using only rendered buttons, a row sends no more deletes than it had delete clicks |
| Item.DeletesNameTheRow | src/components/TaskItem.jsx:45-48 | every delete a row sends names the row's own task |
| Item.ConfirmRemovesTask | src/components/TaskItem.jsx:46 | confirming a delete leaves no task with the row's id in the application's list |
| Form.Defaults | src/components/TaskForm.jsx:11-16 | definition, no contract: empty title, description and category, medium priority, no date, collapsed, the same values the reset at lines 53-58 restores; its laws are stated by `Form.Cancel`, `Form.Submit` and `Form.ResetFormSubmitsNothing` |
| Form.OnEditingChange | src/components/TaskForm.jsx:18-27 | choosing a task copies its title, description, priority, due date and category into the form, with an absent description or category as empty, and expands it; choosing none changes nothing |
| Form.Normalise | src/components/TaskForm.jsx:33-40 | submitted fields are trimmed and the title is non-empty; a blank category becomes absent and any other becomes its trimmed text; priority and due date pass through; completion is carried over from the edited task, false for a new one |
| Form.Edited | src/components/TaskForm.jsx:43-47 | an edit keeps the task's id and creation stamp, overwrites the form fields, and sets the update stamp |
| Form.Submit | src/components/TaskForm.jsx:29-60 | a blank title does nothing; otherwise the form sends the normalised fields as an add, or laid over the edited task as an update, then leaves edit mode and resets to its defaults |
| Form.Cancel | src/components/TaskForm.jsx:62-70 | cancel resets every field to its default, collapses the form, and leaves edit mode |
| Form.ResetFormSubmitsNothing | src/components/TaskForm.jsx:52-58 | a reset form cannot submit anything |
| Form.EditRoundTrip | src/components/TaskForm.jsx:18-47 | loading a well-formed task and submitting it unchanged updates only its update stamp |
| Form.AddKeepsWellFormed | src/App.jsx:58-66 | adding well-formed data keeps every stored task well formed |
| Form.DeleteKeepsWellFormed | src/App.jsx:79-81 | delete keeps every stored task well formed |
| Form.ToggleKeepsWellFormed | src/App.jsx:84-92 | toggle keeps every stored task well formed, since it changes only completion and the update stamp |
| Form.DispatchKeepsWellFormed | src/App.jsx:58-92 | no handler brings a task with a blank title or untrimmed fields into the list, given well-formed submissions |
| Form.DispatchAllKeepsWellFormed | src/App.jsx:58-92 | a sequence of such handlers, one clock reading per intent, keeps the list well formed |
| Form.SubmitFirstAdmissible | src/components/TaskForm.jsx:31-50 | the add or update a non-blank submission sends is well formed |
| Form.SubmitSendsAdmissible | src/components/TaskForm.jsx:29-50 | everything the form sends is well formed |
| Form.SubmitKeepsTasksWellFormed | src/components/TaskForm.jsx:31-50 | after the form's intents are handled, no stored task has a blank title |

## Left out

- Login and logout (`handleLogin`, `handleLogout`), the `Login` screen and its animation delay: session handling is outside the modelled core.
- Dark mode and its persistence: a presentational preference.
- `src/utils/localStorage.js` (`saveTasks`, `loadTasks`, user records): the model holds the list in memory. JSON serialisation and the browser storage API are not modelled.
- `generateId`: it depends on the clock and on randomness, so the add path takes the identifier as a parameter.
- Store.NewTask: `handleAddTask` reads the clock twice, so the creation and update stamps could differ by a millisecond. The model reads it once.
- JavaScript `Date` parsing and locale formatting (`formatDate`, `formatDateTime`, `toISOString`): dates are integers.
- Text.Lower: Unicode case mapping beyond ASCII letters is not modelled.
- Display.SortForDisplay: the stability of `Array.prototype.sort` is not stated; the contract is sortedness plus permutation.
- Markup, class strings and the colour helpers `getPriorityColor` / `getPriorityColorDark`: presentational only.
- `Header` and `TaskFilter` only render and forward events. `Login`'s blank-name check, trimming and 300 ms delay belong to session handling, which is left out above.
- The submit button's `disabled` state (`src/components/TaskForm.jsx:237`) uses the same blank-title test as `handleSubmit`. The model relies on the test inside `Submit`.

=== FILE: display.dfy ===
/** The task list's display order and its statistics header. */
module Display {
  import opened Wrappers
  import opened Tasks
  import Seqs

  /** The sort comparator, as written: negative puts `a` first, positive puts
      `b` first. Two dated tasks with the same due date compare equal; the
      creation stamp is consulted only when neither task has a due date. */
  function Compare(a: Task, b: Task): int {
    if a.completed != b.completed then (if a.completed then 1 else -1)
    else if a.priority != b.priority then Rank(b.priority) - Rank(a.priority)
    else if a.dueDate.Some? && b.dueDate.Some? then a.dueDate.value - b.dueDate.value
    else if a.dueDate.Some? && b.dueDate.None? then -1
    else if a.dueDate.None? && b.dueDate.Some? then 1
    else b.createdAt - a.createdAt
  }

  function Sign(n: int): int {
    if n < 0 then -1 else if n > 0 then 1 else 0
  }

  /** `a` may be displayed before `b`. */
  predicate Precedes(a: Task, b: Task) {
    Compare(a, b) <= 0
  }

  /** Every pair of positions is in comparator order. */
  predicate Sorted(s: seq<Task>) {
    forall i, j :: 0 <= i < j < |s| ==> Precedes(s[i], s[j])
  }

  // ------------------------------------------------------ comparator laws

  /** Swapping the arguments negates the sign. */
  lemma CompareAntisymmetric(a: Task, b: Task)
    ensures Sign(Compare(a, b)) == -Sign(Compare(b, a))
  {
  }

  /** A task ties with itself. */
  lemma CompareReflexive(a: Task)
    ensures Compare(a, a) == 0
  {
  }

  /** Any two tasks are ordered one way or the other. */
  lemma PrecedesTotal(a: Task, b: Task)
    ensures Precedes(a, b) || Precedes(b, a)
  {
  }

  /** The comparator's order is transitive, so it is a total preorder. */
  lemma PrecedesTransitive(a: Task, b: Task, c: Task)
    requires Precedes(a, b) && Precedes(b, c)
    ensures Precedes(a, c)
  {
  }

  /** Strict precedence is transitive too. */
  lemma StrictlyPrecedesTransitive(a: Task, b: Task, c: Task)
    requires Compare(a, b) < 0 && Compare(b, c) < 0
    ensures Compare(a, c) < 0
  {
  }

  /** Two dated tasks that agree on completion, priority and due date tie,
      however their creation stamps differ. */
  lemma EqualDueDatesTie(a: Task, b: Task)
    requires a.completed == b.completed && a.priority == b.priority
    requires a.dueDate.Some? && a.dueDate == b.dueDate
    ensures Compare(a, b) == 0
  {
  }

  // ------------------------------------------------------------ the sort

  /** A sorted list stays sorted under a new head that may precede all of it. */
  lemma SortedCons(x: Task, s: seq<Task>)
    requires Sorted(s)
    requires forall j :: 0 <= j < |s| ==> Precedes(x, s[j])
    ensures Sorted([x] + s)
  {
    var r := [x] + s;
    forall i, j | 0 <= i < j < |r| ensures Precedes(r[i], r[j]) {
      assert r[j] == s[j - 1];
      if i > 0 { assert r[i] == s[i - 1]; }
    }
  }

  /** An element that may precede the head of a sorted list may precede all of it. */
  lemma InsertAtFront(x: Task, s: seq<Task>)
    requires Sorted(s) && s != [] && Precedes(x, s[0])
    ensures Sorted([x] + s)
  {
    forall j | 0 <= j < |s| ensures Precedes(x, s[j]) {
      if j > 0 { PrecedesTransitive(x, s[0], s[j]); }
    }
    SortedCons(x, s);
  }

  /** When `x` goes after the head, the head may precede everything that the
      insertion into the tail produced. */
  lemma InsertBehindHead(x: Task, s: seq<Task>, rest: seq<Task>)
    requires Sorted(s) && s != [] && !Precedes(x, s[0])
    requires Sorted(rest) && multiset(rest) == multiset(s[1..]) + multiset{x}
    ensures Sorted([s[0]] + rest)
    ensures multiset([s[0]] + rest) == multiset(s) + multiset{x}
  {
    PrecedesTotal(x, s[0]);
    assert s == [s[0]] + s[1..];
    forall j | 0 <= j < |rest| ensures Precedes(s[0], rest[j]) {
      assert rest[j] in multiset(rest);
    }
    SortedCons(s[0], rest);
  }

  /** Inserts `x` before the first element it may precede. */
  function Insert(x: Task, s: seq<Task>): (r: seq<Task>)
    requires Sorted(s)
    ensures Sorted(r)
    ensures multiset(r) == multiset(s) + multiset{x}
  {
    if s == [] then [x]
    else if Precedes(x, s[0]) then
      InsertAtFront(x, s);
      assert s == [s[0]] + s[1..];
      [x] + s
    else
      var rest := Insert(x, s[1..]);
      InsertBehindHead(x, s, rest);
      [s[0]] + rest
  }

  /** The display order: a sorted permutation of the list. */
  function SortForDisplay(s: seq<Task>): (r: seq<Task>)
    ensures Sorted(r)
    ensures multiset(r) == multiset(s)
    ensures |r| == |s|
  {
    if s == [] then []
    else
      assert s == [s[0]] + s[1..];
      Insert(s[0], SortForDisplay(s[1..]))
  }

  // ------------------------------------------------ display order lemmas

  /** Every incomplete task is shown before every completed one. */
  lemma IncompleteFirst(s: seq<Task>, i: int, j: int)
    requires Sorted(s) && 0 <= i < |s| && 0 <= j < |s|
    requires !s[i].completed && s[j].completed
    ensures i < j
  {
  }

  /** Among tasks of equal completion, a higher priority is shown first. */
  lemma HigherPriorityFirst(s: seq<Task>, i: int, j: int)
    requires Sorted(s) && 0 <= i < |s| && 0 <= j < |s|
    requires s[i].completed == s[j].completed && Rank(s[i].priority) > Rank(s[j].priority)
    ensures i < j
  {
  }

  /** With completion and priority equal, a dated task is shown before an
      undated one. */
  lemma DatedBeforeUndated(s: seq<Task>, i: int, j: int)
    requires Sorted(s) && 0 <= i < |s| && 0 <= j < |s|
    requires s[i].completed == s[j].completed && s[i].priority == s[j].priority
    requires s[i].dueDate.Some? && s[j].dueDate.None?
    ensures i < j
  {
  }

  /** With completion and priority equal, the earlier due date is shown first. */
  lemma EarlierDueFirst(s: seq<Task>, i: int, j: int)
    requires Sorted(s) && 0 <= i < |s| && 0 <= j < |s|
    requires s[i].completed == s[j].completed && s[i].priority == s[j].priority
    requires s[i].dueDate.Some? && s[j].dueDate.Some?
    requires s[i].dueDate.value < s[j].dueDate.value
    ensures i < j
  {
  }

  /** When completion and priority tie and neither task is dated, the newer
      task is shown first. */
  lemma NewerFirst(s: seq<Task>, i: int, j: int)
    requires Sorted(s) && 0 <= i < |s| && 0 <= j < |s|
    requires s[i].completed == s[j].completed && s[i].priority == s[j].priority
    requires s[i].dueDate.None? && s[j].dueDate.None?
    requires s[i].createdAt > s[j].createdAt
    ensures i < j
  {
  }

  /** Four example tasks: two open high-priority tasks due
      on days 10 and 5, an open undated medium-priority task and a completed
      low-priority task. */
  predicate ExampleTasks(a: Task, b: Task, c: Task, d: Task) {
    && !a.completed && a.priority == High && a.dueDate == Some(10)
    && !b.completed && b.priority == High && b.dueDate == Some(5)
    && !c.completed && c.priority == Medium && c.dueDate.None?
    && d.completed && d.priority == Low
  }

  lemma ExampleTail(a: Task, b: Task, c: Task, d: Task)
    requires ExampleTasks(a, b, c, d)
    ensures SortForDisplay([b, c, d]) == [b, c, d]
  {
    assert Precedes(c, d) && Precedes(b, c) && Precedes(b, d);
    assert SortForDisplay([d]) == [d] by { assert [d][1..] == []; }
    assert SortForDisplay([c, d]) == [c, d] by {
      assert [c, d][1..] == [d];
      assert Insert(c, [d]) == [c, d];
    }
    assert [b, c, d][1..] == [c, d];
    assert Insert(b, [c, d]) == [b, c, d];
  }

  lemma ExampleHead(a: Task, b: Task, c: Task, d: Task)
    requires ExampleTasks(a, b, c, d) && Sorted([b, c, d])
    ensures Insert(a, [b, c, d]) == [b, a, c, d]
  {
    assert !Precedes(a, b) && Precedes(a, c) && Precedes(c, d);
    assert [b, c, d][1..] == [c, d];
    assert Insert(a, [c, d]) == [a, c, d];
    assert [b] + [a, c, d] == [b, a, c, d];
  }

  /** These four tasks are displayed as: the task due on day 5, the one due
      on day 10, the undated one, then the completed one. */
  lemma DisplayOrderExample(a: Task, b: Task, c: Task, d: Task)
    requires ExampleTasks(a, b, c, d)
    ensures SortForDisplay([a, b, c, d]) == [b, a, c, d]
  {
    ExampleTail(a, b, c, d);
    ExampleHead(a, b, c, d);
    assert [a, b, c, d][1..] == [b, c, d];
  }

  // ---------------------------------------------------------- statistics

  function OverdueAt(now: Time): Task -> bool {
    (t: Task) => IsOverdue(t, now)
  }

  /** `completedCount`: how many listed tasks are completed. */
  function CompletedCount(tasks: seq<Task>): (n: nat)
    ensures n <= |tasks|
  {
    |Seqs.Filter(tasks, IsDone)|
  }

  /** `overdueCount`: how many listed tasks are open with a due date before `now`. */
  function OverdueCount(tasks: seq<Task>, now: Time): (n: nat)
    ensures n <= |tasks|
  {
    |Seqs.Filter(tasks, OverdueAt(now))|
  }

  /** The completed tasks counted are exactly the completed tasks of the
      list, each with its multiplicity. */
  lemma CompletedCountCountsCompletedTasks(tasks: seq<Task>)
    ensures var r := Seqs.Filter(tasks, IsDone);
            CompletedCount(tasks) == |r| &&
            forall t: Task :: multiset(r)[t] == if t.completed then multiset(tasks)[t] else 0
  {
  }

  /** The overdue tasks are exactly the open, dated tasks due before `now`,
      each counted with its multiplicity in the list. */
  lemma OverdueCountCountsOverdueTasks(tasks: seq<Task>, now: Time)
    ensures var r := Seqs.Filter(tasks, OverdueAt(now));
            OverdueCount(tasks, now) == |r| &&
            forall t: Task :: multiset(r)[t] ==
              if t.dueDate.Some? && t.dueDate.value < now && !t.completed
              then multiset(tasks)[t] else 0
  {
  }

  /** No task is both completed and overdue, so the two badges never add up
      to more than the list. */
  lemma CompletedAndOverdueDisjoint(tasks: seq<Task>, now: Time)
    ensures CompletedCount(tasks) + OverdueCount(tasks, now) <= |tasks|
  {
    Seqs.FilterDisjoint(tasks, IsDone, OverdueAt(now));
  }

  /** The statistics are the same whether taken over the list or over its
      display order. */
  lemma StatsIgnoreOrder(tasks: seq<Task>, now: Time)
    ensures CompletedCount(SortForDisplay(tasks)) == CompletedCount(tasks)
    ensures OverdueCount(SortForDisplay(tasks), now) == OverdueCount(tasks, now)
  {
    Seqs.FilterCountPermutation(SortForDisplay(tasks), tasks, IsDone);
    Seqs.FilterCountPermutation(SortForDisplay(tasks), tasks, OverdueAt(now));
  }
}

=== FILE: form.dfy ===
/** The task entry form: its fields, loading a task for editing, and the
    submit and cancel actions that normalise the fields and reset the form. */
module Form {
  import opened Wrappers
  import opened Tasks
  import Text
  import Store

  /** The form's fields. The date input is either empty (`None`) or holds a
      date. */
  datatype FormState = FormState(
    title: string,
    description: string,
    priority: Priority,
    dueDate: Option<Time>,
    category: string,
    isExpanded: bool)

  /** The form's initial state: empty fields, medium priority, collapsed. */
  const Defaults: FormState := FormState("", "", Medium, None, "", false)

  /** Copying the task chosen for editing into the fields; absent optional
      fields show as empty. Choosing no task leaves the form alone. */
  function OnEditingChange(f: FormState, editing: Option<Task>): (r: FormState)
    ensures editing.None? ==> r == f
    ensures editing.Some? ==> r.isExpanded && r.title == editing.value.title
    ensures editing.Some? ==> r.priority == editing.value.priority && r.dueDate == editing.value.dueDate
    ensures editing.Some? && editing.value.description.Some? ==> r.description == editing.value.description.value
    ensures editing.Some? && editing.value.description.None? ==> r.description == []
    ensures editing.Some? && editing.value.category.Some? ==> r.category == editing.value.category.value
    ensures editing.Some? && editing.value.category.None? ==> r.category == []
  {
    match editing
    case None => f
    case Some(t) =>
      FormState(t.title, t.description.GetOr(""), t.priority, t.dueDate, t.category.GetOr(""), true)
  }

  /** A submitted record: a non-empty trimmed title, a trimmed description,
      and a category that is either absent or non-empty and trimmed. */
  predicate WellFormedData(d: TaskData) {
    && d.title != [] && Text.IsTrimmed(d.title)
    && Text.IsTrimmed(d.description)
    && (d.category.Some? ==> d.category.value != [] && Text.IsTrimmed(d.category.value))
  }

  /** A stored task whose fields are exactly what the form would submit. */
  predicate WellFormedTask(t: Task) {
    && t.title != [] && Text.IsTrimmed(t.title)
    && t.description.Some? && Text.IsTrimmed(t.description.value)
    && (t.category.Some? ==> t.category.value != [] && Text.IsTrimmed(t.category.value))
  }

  /** The fields as submitted: title and description trimmed, an empty date
      or a blank category turned into absent, completion carried over from
      the task being edited (false for a new task). */
  function Normalise(f: FormState, editing: Option<Task>): (d: TaskData)
    requires Text.Trim(f.title) != []
    ensures WellFormedData(d)
    ensures d.title == Text.Trim(f.title) && d.description == Text.Trim(f.description)
    ensures d.category.None? <==> Text.IsBlank(f.category)
    ensures d.category.Some? ==> d.category.value == Text.Trim(f.category)
    ensures d.completed <==> editing.Some? && editing.value.completed
    ensures d.priority == f.priority && d.dueDate == f.dueDate
  {
    var category := Text.Trim(f.category);
    Text.TrimIsInfix(f.category);
    TaskData(Text.Trim(f.title), Text.Trim(f.description), f.priority, f.dueDate,
             if category == [] then None else Some(category),
             editing.Some? && editing.value.completed)
  }

  /** The edited task: the form's fields and a fresh update stamp laid over
      the task being edited. */
  function Edited(t: Task, d: TaskData, now: Time): (u: Task)
    ensures u.id == t.id && u.createdAt == t.createdAt && u.updatedAt == now
    ensures u.title == d.title && u.description == Some(d.description) && u.priority == d.priority
    ensures u.dueDate == d.dueDate && u.category == d.category && u.completed == d.completed
    ensures WellFormedData(d) ==> WellFormedTask(u)
  {
    t.(title := d.title, description := Some(d.description), priority := d.priority,
       dueDate := d.dueDate, category := d.category, completed := d.completed,
       updatedAt := now)
  }

  /** The form after an action, and the intents the action sent. */
  datatype Submission = Submission(form: FormState, intents: seq<Intent>)

  /** Submitting: a blank title does nothing at all; otherwise the form sends
      an update (when editing) or an add, then leaves edit mode and resets. */
  function Submit(f: FormState, editing: Option<Task>, now: Time): (r: Submission)
    ensures Text.Trim(f.title) == [] ==> r == Submission(f, [])
    ensures Text.Trim(f.title) != [] ==>
              && r.form == Defaults
              && |r.intents| == 2 && r.intents[1] == CancelEditIntent
    ensures Text.Trim(f.title) != [] && editing.None? ==>
              && r.intents[0] == AddIntent(Normalise(f, editing))
              && WellFormedData(r.intents[0].data)
              && r.intents[0].data.title == Text.Trim(f.title)
              && !r.intents[0].data.completed
    ensures Text.Trim(f.title) != [] && editing.Some? ==>
              && r.intents[0] == UpdateIntent(Edited(editing.value, Normalise(f, editing), now))
              && WellFormedTask(r.intents[0].task)
              && r.intents[0].task.title == Text.Trim(f.title)
              && r.intents[0].task.id == editing.value.id
              && r.intents[0].task.createdAt == editing.value.createdAt
              && r.intents[0].task.completed == editing.value.completed
              && r.intents[0].task.updatedAt == now
  {
    if Text.Trim(f.title) == [] then Submission(f, [])
    else
      var data := Normalise(f, editing);
      var first := match editing
        case Some(t) => UpdateIntent(Edited(t, data, now))
        case None => AddIntent(data);
      Submission(Defaults, [first, CancelEditIntent])
  }

  /** Cancelling resets the form and leaves edit mode. */
  function Cancel(f: FormState): (r: Submission)
    ensures r.form.title == [] && r.form.description == [] && r.form.category == []
    ensures r.form.dueDate == None && r.form.priority == Medium && !r.form.isExpanded
    ensures r.intents == [CancelEditIntent]
  {
    Submission(Defaults, [CancelEditIntent])
  }

  // ---------------------------------------------------------------- lemmas

  /** A reset form cannot submit: submitting right after a submit or a cancel
      sends nothing. */
  lemma ResetFormSubmitsNothing(editing: Option<Task>, now: Time)
    ensures Submit(Defaults, editing, now) == Submission(Defaults, [])
  {
  }

  /** Loading a well-formed task and submitting it unchanged sends an update
      that changes only its update stamp. */
  lemma EditRoundTrip(f: FormState, t: Task, now: Time)
    requires WellFormedTask(t)
    ensures Submit(OnEditingChange(f, Some(t)), Some(t), now).intents
            == [UpdateIntent(t.(updatedAt := now)), CancelEditIntent]
  {
    var g := OnEditingChange(f, Some(t));
    Text.TrimTrimmed(t.title);
    Text.TrimTrimmed(t.description.value);
    assert Text.Trim(g.title) == t.title;
    assert Text.Trim(g.description) == t.description.value;
    match t.category
    case None =>
      assert Text.Trim(g.category) == [];
    case Some(c) =>
      Text.TrimTrimmed(c);
      assert Text.Trim(g.category) == c;
    var d := Normalise(g, Some(t));
    assert d == TaskData(t.title, t.description.value, t.priority, t.dueDate, t.category, t.completed);
    assert Edited(t, d, now) == t.(updatedAt := now);
  }

  /** Every task in the list is well formed. */
  predicate AllWellFormed(tasks: seq<Task>) {
    forall i :: 0 <= i < |tasks| ==> WellFormedTask(tasks[i])
  }

  /** An intent that cannot bring a malformed task into the list. */
  predicate Admissible(intent: Intent) {
    && (intent.AddIntent? ==> WellFormedData(intent.data))
    && (intent.UpdateIntent? ==> WellFormedTask(intent.task))
  }

  /** Every intent of the sequence is admissible. */
  predicate AllAdmissible(intents: seq<Intent>) {
    forall i :: 0 <= i < |intents| ==> Admissible(intents[i])
  }

  /** An admissible intent followed by leaving edit mode is admissible. */
  lemma AdmissiblePair(a: Intent)
    requires Admissible(a)
    ensures AllAdmissible([a, CancelEditIntent])
  {
  }

  /** Adding well-formed data keeps the stored tasks well formed. */
  lemma AddKeepsWellFormed(tasks: seq<Task>, data: TaskData, freshId: string, now: Time)
    requires AllWellFormed(tasks) && WellFormedData(data)
    ensures AllWellFormed(Store.AddTask(tasks, data, freshId, now))
  {
    var r := Store.AddTask(tasks, data, freshId, now);
    forall i | 0 <= i < |r| ensures WellFormedTask(r[i]) {
      if i > 0 { assert r[i] == tasks[i - 1]; }
    }
  }

  /** Deleting keeps the stored tasks well formed. */
  lemma DeleteKeepsWellFormed(tasks: seq<Task>, id: string)
    requires AllWellFormed(tasks)
    ensures AllWellFormed(Store.DeleteTask(tasks, id))
  {
    var r := Store.DeleteTask(tasks, id);
    forall i | 0 <= i < |r| ensures WellFormedTask(r[i]) {
      assert multiset(r)[r[i]] > 0;
      assert r[i] in multiset(tasks);
    }
  }

  /** Toggling keeps the stored tasks well formed. */
  lemma ToggleKeepsWellFormed(tasks: seq<Task>, id: string, now: Time)
    requires AllWellFormed(tasks)
    ensures AllWellFormed(Store.ToggleComplete(tasks, id, now))
  {
    var r := Store.ToggleComplete(tasks, id, now);
    forall i | 0 <= i < |r| ensures WellFormedTask(r[i]) {
      assert WellFormedTask(tasks[i]);
    }
  }

  /** Every handler keeps the stored tasks well formed, given well-formed
      submissions: the form's own, and the toggles and deletes of task rows. */
  lemma DispatchKeepsWellFormed(s: Store.AppState, intent: Intent, freshId: string, now: Time)
    requires AllWellFormed(s.tasks) && Admissible(intent)
    ensures AllWellFormed(Store.Dispatch(s, intent, freshId, now).tasks)
  {
    match intent
    case AddIntent(data) => AddKeepsWellFormed(s.tasks, data, freshId, now);
    case DeleteIntent(id) => DeleteKeepsWellFormed(s.tasks, id);
    case UpdateIntent(t) =>
    case ToggleIntent(id) => ToggleKeepsWellFormed(s.tasks, id, now);
    case EditIntent(_) =>
    case CancelEditIntent =>
  }

  /** A sequence of admissible intents keeps the stored tasks well formed. */
  lemma {:induction false} DispatchAllKeepsWellFormed(s: Store.AppState, intents: seq<Intent>, freshIds: seq<string>, nows: seq<Time>)
    requires AllWellFormed(s.tasks) && |freshIds| == |intents| && |nows| == |intents|
    requires AllAdmissible(intents)
    ensures AllWellFormed(Store.DispatchAll(s, intents, freshIds, nows).tasks)
    decreases |intents|
  {
    if intents != [] {
      DispatchKeepsWellFormed(s, intents[0], freshIds[0], nows[0]);
      DispatchAllKeepsWellFormed(Store.Dispatch(s, intents[0], freshIds[0], nows[0]), intents[1..], freshIds[1..], nows[1..]);
    }
  }

  /** The first intent of a submission with a non-blank title is admissible. */
  lemma SubmitFirstAdmissible(f: FormState, editing: Option<Task>, now: Time)
    requires Text.Trim(f.title) != []
    ensures Admissible(Submit(f, editing, now).intents[0])
  {
  }

  /** Everything the form sends is admissible. */
  lemma SubmitSendsAdmissible(f: FormState, editing: Option<Task>, now: Time)
    ensures AllAdmissible(Submit(f, editing, now).intents)
  {
    var intents := Submit(f, editing, now).intents;
    if Text.Trim(f.title) != [] {
      SubmitFirstAdmissible(f, editing, now);
      assert intents == [intents[0], CancelEditIntent];
      AdmissiblePair(intents[0]);
    } else {
      assert intents == [];
    }
  }

  /** Dispatching what the form sends keeps every stored task well formed;
      in particular no stored task ever has a blank title. The form stamps
      edits at `now`; the application reads its own clock, `later`. */
  lemma SubmitKeepsTasksWellFormed(s: Store.AppState, f: FormState, now: Time, later: Time, freshId: string)
    requires AllWellFormed(s.tasks)
    ensures var intents := Submit(f, s.editingTask, now).intents;
            AllWellFormed(Store.DispatchAll(s, intents, [freshId, freshId][..|intents|], [later, later][..|intents|]).tasks)
  {
    var intents := Submit(f, s.editingTask, now).intents;
    SubmitSendsAdmissible(f, s.editingTask, now);
    DispatchAllKeepsWellFormed(s, intents, [freshId, freshId][..|intents|], [later, later][..|intents|]);
  }
}

=== FILE: item.dfy ===
/** One rendered task row: the buttons that send intents to the application,
    including the two-step delete confirmation. */
module Item {
  import opened Tasks
  import Store

  /** The user actions a task row reacts to. */
  datatype Click = ToggleClicked | EditClicked | DeleteClicked | ConfirmClicked | CancelClicked

  /** Whether the confirmation panel is open after a click. Delete opens it,
      confirm and cancel close it, the other buttons leave it alone. */
  function NextOpen(confirmOpen: bool, click: Click): (open: bool)
    ensures click == DeleteClicked ==> open
    ensures click == ConfirmClicked || click == CancelClicked ==> !open
    ensures click == ToggleClicked || click == EditClicked ==> open == confirmOpen
  {
    match click
    case DeleteClicked => true
    case ConfirmClicked => false
    case CancelClicked => false
    case _ => confirmOpen
  }

  /** The intents one click sends. Only confirm sends a delete, and it names
      this row's task. */
  function Sent(task: Task, click: Click): (r: seq<Intent>)
    ensures |r| <= 1
    ensures CountDeletes(r) == if click == ConfirmClicked then 1 else 0
    ensures forall i :: 0 <= i < |r| && r[i].DeleteIntent? ==> r[i].id == task.id
    ensures click == DeleteClicked || click == CancelClicked ==> r == []
    ensures click == ToggleClicked ==> r == [ToggleIntent(task.id)]
    ensures click == EditClicked ==> r == [EditIntent(task)]
  {
    match click
    case ToggleClicked => [ToggleIntent(task.id)]
    case EditClicked => [EditIntent(task)]
    case DeleteClicked => []
    case ConfirmClicked => [DeleteIntent(task.id)]
    case CancelClicked => []
  }

  /** The confirm and cancel buttons are rendered only while the panel is
      open; the other buttons are always there. */
  predicate Enabled(confirmOpen: bool, click: Click) {
    click == ConfirmClicked || click == CancelClicked ==> confirmOpen
  }

  /** The panel state and the intents sent after a sequence of clicks. */
  datatype Reaction = Reaction(confirmOpen: bool, intents: seq<Intent>)

  function Run(task: Task, confirmOpen: bool, clicks: seq<Click>): Reaction
    decreases |clicks|
  {
    if clicks == [] then Reaction(confirmOpen, [])
    else
      var rest := Run(task, NextOpen(confirmOpen, clicks[0]), clicks[1..]);
      Reaction(rest.confirmOpen, Sent(task, clicks[0]) + rest.intents)
  }

  /** Every click of the sequence hits a rendered button. */
  predicate EnabledRun(confirmOpen: bool, clicks: seq<Click>)
    decreases |clicks|
  {
    clicks == [] ||
    (Enabled(confirmOpen, clicks[0]) && EnabledRun(NextOpen(confirmOpen, clicks[0]), clicks[1..]))
  }

  function CountDeletes(intents: seq<Intent>): nat {
    if intents == [] then 0
    else (if intents[0].DeleteIntent? then 1 else 0) + CountDeletes(intents[1..])
  }

  function CountClicks(clicks: seq<Click>, c: Click): nat {
    if clicks == [] then 0
    else (if clicks[0] == c then 1 else 0) + CountClicks(clicks[1..], c)
  }

  lemma {:induction false} CountDeletesAppend(a: seq<Intent>, b: seq<Intent>)
    ensures CountDeletes(a + b) == CountDeletes(a) + CountDeletes(b)
  {
    if a != [] {
      assert (a + b)[1..] == a[1..] + b;
      CountDeletesAppend(a[1..], b);
    } else {
      assert a + b == b;
    }
  }

  // ---------------------------------------------------------------- lemmas

  /** Through rendered buttons only, a row never sends more deletes than it
      had delete clicks: each delete needs its own opening of the panel. */
  lemma {:induction false} DeletesNeedConfirmation(task: Task, confirmOpen: bool, clicks: seq<Click>)
    requires EnabledRun(confirmOpen, clicks)
    ensures var r := Run(task, confirmOpen, clicks);
            CountDeletes(r.intents) + (if r.confirmOpen then 1 else 0)
            <= CountClicks(clicks, DeleteClicked) + (if confirmOpen then 1 else 0)
    decreases |clicks|
  {
    if clicks != [] {
      var open := NextOpen(confirmOpen, clicks[0]);
      DeletesNeedConfirmation(task, open, clicks[1..]);
      var sent := Sent(task, clicks[0]);
      CountDeletesAppend(sent, Run(task, open, clicks[1..]).intents);
      if clicks[0] == ConfirmClicked {
        assert CountDeletes(sent) == 1;
      } else if sent != [] {
        assert !sent[0].DeleteIntent?;
        assert CountDeletes(sent) == 0;
      }
    }
  }

  /** Every delete among `intents` names the task `id`. */
  predicate DeletesOnly(intents: seq<Intent>, id: string) {
    forall i :: 0 <= i < |intents| && intents[i].DeleteIntent? ==> intents[i].id == id
  }

  /** Every delete a row sends names the row's own task. */
  lemma {:induction false} DeletesNameTheRow(task: Task, confirmOpen: bool, clicks: seq<Click>)
    ensures DeletesOnly(Run(task, confirmOpen, clicks).intents, task.id)
    decreases |clicks|
  {
    if clicks != [] {
      var sent := Sent(task, clicks[0]);
      var open := NextOpen(confirmOpen, clicks[0]);
      var rest := Run(task, open, clicks[1..]).intents;
      DeletesNameTheRow(task, open, clicks[1..]);
      var r := sent + rest;
      assert r == Run(task, confirmOpen, clicks).intents;
      forall i | 0 <= i < |r| && r[i].DeleteIntent? ensures r[i].id == task.id {
        if i >= |sent| {
          assert r[i] == rest[i - |sent|];
        } else {
          assert r[i] == sent[i];
        }
      }
    }
  }

  /** Confirming a delete removes the row's task from the application's list. */
  lemma ConfirmRemovesTask(s: Store.AppState, task: Task, freshId: string, now: Time)
    ensures var intents := Sent(task, ConfirmClicked);
            |intents| == 1 &&
            !Store.HasId(Store.Dispatch(s, intents[0], freshId, now).tasks, task.id)
  {
    Store.DeleteKeepsOrder(s.tasks, task.id);
  }
}

=== FILE: seqs.dfy ===
/** Order-preserving filtering of sequences, the model of `Array.prototype.filter`. */
module Seqs {

  /** `a` is obtained from `b` by deleting elements and keeping the rest in order. */
  predicate IsSubsequence<T(==,!new)>(a: seq<T>, b: seq<T>)
    decreases |b|
  {
    if a == [] then true
    else if b == [] then false
    else if a[0] == b[0] then IsSubsequence(a[1..], b[1..])
    else IsSubsequence(a, b[1..])
  }

  /** The elements of `s` satisfying `p`, in their original order. The
      multiset clause pins the contents: every element passing `p` is kept
      with its full multiplicity and every other element is dropped. */
  function Filter<T(==,!new)>(s: seq<T>, p: T -> bool): (r: seq<T>)
    ensures |r| <= |s|
    ensures forall i :: 0 <= i < |r| ==> p(r[i])
    ensures forall x :: multiset(r)[x] == if p(x) then multiset(s)[x] else 0
  {
    if s == [] then []
    else
      assert s == [s[0]] + s[1..];
      if p(s[0]) then [s[0]] + Filter(s[1..], p) else Filter(s[1..], p)
  }

  lemma {:induction false} SubsequenceCons<T(!new)>(a: seq<T>, b: seq<T>, x: T)
    requires IsSubsequence(a, b)
    ensures IsSubsequence(a, [x] + b)
    decreases |b|, 1
  {
    var c := [x] + b;
    assert c[1..] == b;
    if a != [] && a[0] == x {
      SubsequenceDropHead(a, b);
    }
  }

  lemma {:induction false} SubsequenceDropHead<T(!new)>(a: seq<T>, b: seq<T>)
    requires a != [] && IsSubsequence(a, b)
    ensures IsSubsequence(a[1..], b)
    decreases |b|, 0
  {
    assert b != [];
    if a[0] == b[0] {
      SubsequenceCons(a[1..], b[1..], b[0]);
      assert [b[0]] + b[1..] == b;
    } else {
      SubsequenceDropHead(a, b[1..]);
      SubsequenceCons(a[1..], b[1..], b[0]);
      assert [b[0]] + b[1..] == b;
    }
  }

  /** Every sequence is a subsequence of itself. */
  lemma {:induction false} SubsequenceRefl<T(!new)>(s: seq<T>)
    ensures IsSubsequence(s, s)
  {
    if s != [] {
      SubsequenceRefl(s[1..]);
    }
  }

  /** Filtering a subsequence of `b` yields a subsequence of `b`. */
  lemma {:induction false} FilterOfSubsequence<T(!new)>(a: seq<T>, b: seq<T>, q: T -> bool)
    requires IsSubsequence(a, b)
    ensures IsSubsequence(Filter(a, q), b)
    decreases |b|
  {
    if a != [] {
      var r := Filter(a, q);
      if a[0] == b[0] {
        FilterOfSubsequence(a[1..], b[1..], q);
        if q(a[0]) {
          assert r[0] == b[0] && r[1..] == Filter(a[1..], q);
        } else {
          SubsequenceCons(r, b[1..], b[0]);
          assert [b[0]] + b[1..] == b;
        }
      } else {
        FilterOfSubsequence(a, b[1..], q);
        SubsequenceCons(r, b[1..], b[0]);
        assert [b[0]] + b[1..] == b;
      }
    }
  }

  /** Filtering keeps the survivors in their original relative order. */
  lemma {:induction false} FilterIsSubsequence<T(!new)>(s: seq<T>, p: T -> bool)
    ensures IsSubsequence(Filter(s, p), s)
  {
    if s != [] {
      FilterIsSubsequence(s[1..], p);
      var r := Filter(s, p);
      if p(s[0]) {
        assert r[0] == s[0] && r[1..] == Filter(s[1..], p);
      } else {
        SubsequenceCons(r, s[1..], s[0]);
        assert [s[0]] + s[1..] == s;
      }
    }
  }

  /** A filter every element passes changes nothing. */
  lemma {:induction false} FilterAllPass<T(!new)>(s: seq<T>, p: T -> bool)
    requires forall i :: 0 <= i < |s| ==> p(s[i])
    ensures Filter(s, p) == s
  {
    if s != [] {
      FilterAllPass(s[1..], p);
      assert [s[0]] + s[1..] == s;
    }
  }

  /** Filtering twice by the same predicate is filtering once. */
  lemma FilterIdempotent<T(!new)>(s: seq<T>, p: T -> bool)
    ensures Filter(Filter(s, p), p) == Filter(s, p)
  {
    FilterAllPass(Filter(s, p), p);
  }

  /** Splitting by a predicate and its negation accounts for every element once. */
  lemma {:induction false} FilterPartition<T(!new)>(s: seq<T>, p: T -> bool, q: T -> bool)
    requires forall x :: q(x) == !p(x)
    ensures |Filter(s, p)| + |Filter(s, q)| == |s|
  {
    if s != [] {
      FilterPartition(s[1..], p, q);
    }
  }

  /** Two predicates that never hold together select at most |s| elements between them. */
  lemma {:induction false} FilterDisjoint<T(!new)>(s: seq<T>, p: T -> bool, q: T -> bool)
    requires forall x :: !(p(x) && q(x))
    ensures |Filter(s, p)| + |Filter(s, q)| <= |s|
  {
    if s != [] {
      FilterDisjoint(s[1..], p, q);
    }
  }

  /** How many elements pass a filter does not depend on the order of the input. */
  lemma FilterCountPermutation<T(!new)>(a: seq<T>, b: seq<T>, p: T -> bool)
    requires multiset(a) == multiset(b)
    ensures |Filter(a, p)| == |Filter(b, p)|
  {
    var ra, rb := Filter(a, p), Filter(b, p);
    assert forall x :: multiset(ra)[x] == multiset(rb)[x];
    assert multiset(ra) == multiset(rb);
    assert |ra| == |multiset(ra)| == |multiset(rb)| == |rb|;
  }
}

=== FILE: store.dfy ===
/** The application's task store and the handlers that mutate it. The list
    is newest-first at the storage level; `now` stands for the clock and
    `freshId` for the identifier generator. */
module Store {
  import opened Wrappers
  import opened Tasks
  import Seqs

  /** The part of the application state the handlers touch. */
  datatype AppState = AppState(
    tasks: seq<Task>,
    currentFilter: StatusFilter,
    searchTerm: string,
    editingTask: Option<Task>)

  /** The identifiers of `tasks` are pairwise distinct. */
  predicate UniqueIds(tasks: seq<Task>) {
    forall i, j :: 0 <= i < j < |tasks| ==> tasks[i].id != tasks[j].id
  }

  predicate HasId(tasks: seq<Task>, id: string) {
    exists i :: 0 <= i < |tasks| && tasks[i].id == id
  }

  /** The record a new task gets: the submitted fields, plus a fresh identifier
      and creation and update stamps equal to `now`. */
  function NewTask(data: TaskData, id: string, now: Time): (t: Task)
    ensures t.id == id && t.createdAt == now && t.updatedAt == now
    ensures t.title == data.title && t.description == Some(data.description)
    ensures t.priority == data.priority && t.dueDate == data.dueDate
    ensures t.category == data.category && t.completed == data.completed
  {
    Task(id, data.title, Some(data.description), data.priority, data.dueDate,
         data.category, data.completed, now, now)
  }

  /** Adding prepends the new task and keeps the old list behind it. */
  function AddTask(tasks: seq<Task>, data: TaskData, id: string, now: Time): (r: seq<Task>)
    ensures |r| == |tasks| + 1
    ensures r[0] == NewTask(data, id, now)
    ensures r[1..] == tasks
  {
    [NewTask(data, id, now)] + tasks
  }

  /** Updating replaces, in place, every entry whose id is the updated task's id. */
  function UpdateTask(tasks: seq<Task>, updated: Task): (r: seq<Task>)
    ensures |r| == |tasks|
    ensures forall i :: 0 <= i < |r| ==>
              r[i] == if tasks[i].id == updated.id then updated else tasks[i]
  {
    if tasks == [] then []
    else [if tasks[0].id == updated.id then updated else tasks[0]] + UpdateTask(tasks[1..], updated)
  }

  /** The filter predicate of the delete handler: keep tasks with another id. */
  function KeepOthers(id: string): Task -> bool {
    (t: Task) => t.id != id
  }

  /** Deleting drops every task with the id and keeps all others, in order. */
  function DeleteTask(tasks: seq<Task>, id: string): (r: seq<Task>)
    ensures forall i :: 0 <= i < |r| ==> r[i].id != id
    ensures forall t: Task :: t.id != id ==> multiset(r)[t] == multiset(tasks)[t]
  {
    Seqs.Filter(tasks, KeepOthers(id))
  }

  /** The task with its completion flipped and its update stamp refreshed. */
  function Toggled(t: Task, now: Time): (u: Task)
    ensures u.completed == !t.completed && u.updatedAt == now
    ensures u.(completed := t.completed, updatedAt := t.updatedAt) == t
  {
    t.(completed := !t.completed, updatedAt := now)
  }

  /** Toggling flips completion on the tasks with the id and nothing else. */
  function ToggleComplete(tasks: seq<Task>, id: string, now: Time): (r: seq<Task>)
    ensures |r| == |tasks|
    ensures forall i :: 0 <= i < |r| ==>
              r[i] == if tasks[i].id == id then Toggled(tasks[i], now) else tasks[i]
  {
    if tasks == [] then []
    else [if tasks[0].id == id then Toggled(tasks[0], now) else tasks[0]]
         + ToggleComplete(tasks[1..], id, now)
  }

  /** The application's reaction to one intent. Only the add path consults
      `freshId`; only add and toggle consult `now`. */
  function Dispatch(s: AppState, intent: Intent, freshId: string, now: Time): (r: AppState)
    ensures r.currentFilter == s.currentFilter && r.searchTerm == s.searchTerm
    ensures intent.UpdateIntent? || intent.CancelEditIntent? ==> r.editingTask == None
    ensures intent.EditIntent? ==> r.editingTask == Some(intent.task)
    ensures intent.AddIntent? || intent.DeleteIntent? || intent.ToggleIntent? ==>
              r.editingTask == s.editingTask
    ensures intent.EditIntent? || intent.CancelEditIntent? ==> r.tasks == s.tasks
    ensures intent.AddIntent? ==> r.tasks == AddTask(s.tasks, intent.data, freshId, now)
    ensures intent.UpdateIntent? ==> r.tasks == UpdateTask(s.tasks, intent.task)
    ensures intent.DeleteIntent? ==> r.tasks == DeleteTask(s.tasks, intent.id)
    ensures intent.ToggleIntent? ==> r.tasks == ToggleComplete(s.tasks, intent.id, now)
  {
    match intent
    case AddIntent(data) => s.(tasks := AddTask(s.tasks, data, freshId, now))
    case UpdateIntent(t) => s.(tasks := UpdateTask(s.tasks, t), editingTask := None)
    case DeleteIntent(id) => s.(tasks := DeleteTask(s.tasks, id))
    case ToggleIntent(id) => s.(tasks := ToggleComplete(s.tasks, id, now))
    case EditIntent(t) => s.(editingTask := Some(t))
    case CancelEditIntent => s.(editingTask := None)
  }

  /** Applies a sequence of intents, in order. Each intent gets its own clock
      reading and its own fresh identifier, as each handler reads the clock
      when it runs. */
  function DispatchAll(s: AppState, intents: seq<Intent>, freshIds: seq<string>, nows: seq<Time>): (r: AppState)
    requires |freshIds| == |intents| && |nows| == |intents|
    ensures r.currentFilter == s.currentFilter && r.searchTerm == s.searchTerm
    decreases |intents|
  {
    if intents == [] then s
    else DispatchAll(Dispatch(s, intents[0], freshIds[0], nows[0]), intents[1..], freshIds[1..], nows[1..])
  }

  // ---------------------------------------------------------------- lemmas

  /** Deleting an id that is absent leaves the list unchanged. */
  lemma DeleteAbsent(tasks: seq<Task>, id: string)
    requires !HasId(tasks, id)
    ensures DeleteTask(tasks, id) == tasks
  {
    Seqs.FilterAllPass(tasks, KeepOthers(id));
  }

  /** Deleting the same id twice is the same as deleting it once. */
  lemma DeleteTwice(tasks: seq<Task>, id: string)
    ensures DeleteTask(DeleteTask(tasks, id), id) == DeleteTask(tasks, id)
  {
    Seqs.FilterIdempotent(tasks, KeepOthers(id));
  }

  /** Deleting keeps the remaining tasks in their original relative order. */
  lemma DeleteKeepsOrder(tasks: seq<Task>, id: string)
    ensures Seqs.IsSubsequence(DeleteTask(tasks, id), tasks)
    ensures !HasId(DeleteTask(tasks, id), id)
  {
    Seqs.FilterIsSubsequence(tasks, KeepOthers(id));
  }

  /** With unique ids, deleting a present id removes exactly one task. */
  lemma {:induction false} DeleteUniqueShrinksByOne(tasks: seq<Task>, id: string)
    requires UniqueIds(tasks) && HasId(tasks, id)
    ensures |DeleteTask(tasks, id)| == |tasks| - 1
  {
    if tasks[0].id == id {
      assert !HasId(tasks[1..], id);
      DeleteAbsent(tasks[1..], id);
    } else {
      assert tasks == [tasks[0]] + tasks[1..];
      DeleteUniqueShrinksByOne(tasks[1..], id);
    }
  }

  /** Deleting the freshly added task restores the previous list. */
  lemma DeleteUndoesAdd(tasks: seq<Task>, data: TaskData, id: string, now: Time)
    requires !HasId(tasks, id)
    ensures DeleteTask(AddTask(tasks, data, id, now), id) == tasks
  {
    var r := AddTask(tasks, data, id, now);
    assert r[1..] == tasks;
    DeleteAbsent(tasks, id);
  }

  /** Toggling an id that is absent leaves the list unchanged. */
  lemma ToggleAbsent(tasks: seq<Task>, id: string, now: Time)
    requires !HasId(tasks, id)
    ensures ToggleComplete(tasks, id, now) == tasks
  {
  }

  /** Toggling twice restores every completion flag, and every field other
      than the update stamp. */
  lemma ToggleTwice(tasks: seq<Task>, id: string, now1: Time, now2: Time)
    ensures var r := ToggleComplete(ToggleComplete(tasks, id, now1), id, now2);
            |r| == |tasks| &&
            forall i :: 0 <= i < |r| ==> r[i].(updatedAt := tasks[i].updatedAt) == tasks[i]
  {
  }

  /** Updating with a task whose id is absent leaves the list unchanged. */
  lemma UpdateAbsent(tasks: seq<Task>, updated: Task)
    requires !HasId(tasks, updated.id)
    ensures UpdateTask(tasks, updated) == tasks
  {
  }

  /** Updating twice with the same task is updating once. */
  lemma UpdateIdempotent(tasks: seq<Task>, updated: Task)
    ensures UpdateTask(UpdateTask(tasks, updated), updated) == UpdateTask(tasks, updated)
  {
  }

  /** Updating keeps every identifier in its position. */
  lemma UpdateKeepsIds(tasks: seq<Task>, updated: Task)
    ensures forall i :: 0 <= i < |tasks| ==> UpdateTask(tasks, updated)[i].id == tasks[i].id
  {
  }

  /** Toggling keeps every identifier in its position. */
  lemma ToggleKeepsIds(tasks: seq<Task>, id: string, now: Time)
    ensures forall i :: 0 <= i < |tasks| ==> ToggleComplete(tasks, id, now)[i].id == tasks[i].id
  {
  }

  /** Every handler keeps identifiers unique, provided the add path is given
      an identifier the list does not hold yet. */
  lemma DispatchKeepsUniqueIds(s: AppState, intent: Intent, freshId: string, now: Time)
    requires UniqueIds(s.tasks)
    requires intent.AddIntent? ==> !HasId(s.tasks, freshId)
    ensures UniqueIds(Dispatch(s, intent, freshId, now).tasks)
  {
    match intent
    case AddIntent(data) =>
      var r := AddTask(s.tasks, data, freshId, now);
      forall i, j | 0 <= i < j < |r| ensures r[i].id != r[j].id {
        if i == 0 {
          assert r[j] == s.tasks[j - 1];
        } else {
          assert r[i] == s.tasks[i - 1] && r[j] == s.tasks[j - 1];
        }
      }
    case DeleteIntent(id) =>
      DeleteKeepsUnique(s.tasks, id);
    case UpdateIntent(t) =>
      UpdateKeepsIds(s.tasks, t);
    case ToggleIntent(id) =>
      ToggleKeepsIds(s.tasks, id, now);
    case EditIntent(_) =>
    case CancelEditIntent =>
  }

  /** Prepending a task whose id the list does not hold keeps ids unique. */
  lemma UniqueCons(t: Task, rest: seq<Task>)
    requires UniqueIds(rest)
    requires forall j :: 0 <= j < |rest| ==> rest[j].id != t.id
    ensures UniqueIds([t] + rest)
  {
    var r := [t] + rest;
    forall i, j | 0 <= i < j < |r| ensures r[i].id != r[j].id {
      assert r[j] == rest[j - 1];
      if i > 0 { assert r[i] == rest[i - 1]; }
    }
  }

  /** Delete brings in no id the list did not hold. */
  lemma DeleteAddsNoId(tasks: seq<Task>, id: string, other: string)
    requires forall j :: 0 <= j < |tasks| ==> tasks[j].id != other
    ensures forall j :: 0 <= j < |DeleteTask(tasks, id)| ==> DeleteTask(tasks, id)[j].id != other
  {
    var r := DeleteTask(tasks, id);
    forall j | 0 <= j < |r| ensures r[j].id != other {
      assert multiset(r)[r[j]] > 0;
      assert r[j] in multiset(tasks);
    }
  }

  /** Deleting keeps identifiers unique. */
  lemma {:induction false} DeleteKeepsUnique(tasks: seq<Task>, id: string)
    requires UniqueIds(tasks)
    ensures UniqueIds(DeleteTask(tasks, id))
  {
    if tasks != [] {
      var tail := tasks[1..];
      assert UniqueIds(tail);
      DeleteKeepsUnique(tail, id);
      var rest := DeleteTask(tail, id);
      if tasks[0].id != id {
        assert DeleteTask(tasks, id) == [tasks[0]] + rest;
        assert forall j :: 0 <= j < |tail| ==> tail[j].id != tasks[0].id;
        DeleteAddsNoId(tail, id, tasks[0].id);
        UniqueCons(tasks[0], rest);
      } else {
        assert DeleteTask(tasks, id) == rest;
      }
    }
  }
}

=== FILE: tasks.dfy ===
/** The task record shared by every component, and the intents components
    send to the application's store. Calendar dates and ISO timestamps are
    modelled as milliseconds since the epoch. */
module Tasks {
  import opened Wrappers

  /** Milliseconds since the epoch, what `new Date(x).getTime()` yields. */
  type Time = int

  datatype Priority = Low | Medium | High

  /** The numeric weight of the comparator's `priorityOrder` table. */
  function Rank(p: Priority): (n: int)
    ensures 1 <= n <= 3
    ensures p == High <==> n == 3
    ensures p == Low <==> n == 1
  {
    match p
    case Low => 1
    case Medium => 2
    case High => 3
  }

  /** A stored task. Fields the form may leave unset are optional. */
  datatype Task = Task(
    id: string,
    title: string,
    description: Option<string>,
    priority: Priority,
    dueDate: Option<Time>,
    category: Option<string>,
    completed: bool,
    createdAt: Time,
    updatedAt: Time)

  /** The fields the form submits for a new task, before the store assigns
      an identifier and timestamps. */
  datatype TaskData = TaskData(
    title: string,
    description: string,
    priority: Priority,
    dueDate: Option<Time>,
    category: Option<string>,
    completed: bool)

  /** The three status tabs of the filter bar. */
  datatype StatusFilter = All | Pending | Completed

  /** A request from a component to the application's handlers. */
  datatype Intent =
    | AddIntent(data: TaskData)
    | UpdateIntent(task: Task)
    | DeleteIntent(id: string)
    | ToggleIntent(id: string)
    | EditIntent(task: Task)
    | CancelEditIntent

  /** The filter tests for completed and for pending tasks. */
  const IsDone: Task -> bool := (t: Task) => t.completed

  const IsOpen: Task -> bool := (t: Task) => !t.completed

  /** A task is overdue when it has a due date strictly before `now` and is
      not yet completed. */
  predicate IsOverdue(t: Task, now: Time) {
    t.dueDate.Some? && t.dueDate.value < now && !t.completed
  }

  /** Completed tasks are never overdue, and neither are undated ones. */
  lemma OverdueNeedsOpenDatedTask(t: Task, now: Time)
    ensures t.completed ==> !IsOverdue(t, now)
    ensures t.dueDate.None? ==> !IsOverdue(t, now)
    ensures IsOverdue(t, now) ==> IsOverdue(t, now + 1)
  {
  }
}

=== FILE: text.dfy ===
/** The string primitives the app relies on: `String.prototype.trim`,
    `toLowerCase` (ASCII letters only) and `includes`. */
module Text {

  /** ECMAScript WhiteSpace and LineTerminator code points, the set `trim` strips. */
  predicate IsSpace(c: char) {
    || c == '\t' || c == '\n' || c == '\U{B}' || c == '\U{C}' || c == '\r' || c == ' '
    || c == '\U{A0}' || c == '\U{1680}' || ('\U{2000}' <= c <= '\U{200A}')
    || c == '\U{2028}' || c == '\U{2029}' || c == '\U{202F}' || c == '\U{205F}'
    || c == '\U{3000}' || c == '\U{FEFF}'
  }

  /** `s` neither starts nor ends with white space. */
  predicate IsTrimmed(s: string) {
    s == [] || (!IsSpace(s[0]) && !IsSpace(s[|s| - 1]))
  }

  /** `r` is the infix of `s` starting at `k`, and everything of `s` outside it is white space. */
  predicate StripsTo(s: string, r: string, k: int) {
    && 0 <= k <= |s| - |r|
    && r == s[k..k + |r|]
    && (forall i :: 0 <= i < k ==> IsSpace(s[i]))
    && (forall i :: k + |r| <= i < |s| ==> IsSpace(s[i]))
  }

  /** `s` without its leading white space. */
  function TrimStart(s: string): (r: string)
    ensures |r| <= |s| && r == s[|s| - |r|..]
    ensures r == [] || !IsSpace(r[0])
    ensures forall i :: 0 <= i < |s| - |r| ==> IsSpace(s[i])
  {
    if s != [] && IsSpace(s[0]) then TrimStart(s[1..]) else s
  }

  /** `s` without its trailing white space. */
  function TrimEnd(s: string): (r: string)
    ensures |r| <= |s| && r == s[..|r|]
    ensures r == [] || !IsSpace(r[|r| - 1])
    ensures forall i :: |r| <= i < |s| ==> IsSpace(s[i])
  {
    if s != [] && IsSpace(s[|s| - 1]) then TrimEnd(s[..|s| - 1]) else s
  }

  /** `s` consists of white space only (the empty string included). */
  predicate IsBlank(s: string) {
    forall i :: 0 <= i < |s| ==> IsSpace(s[i])
  }

  /** `s.trim()`: white space removed from both ends. */
  function Trim(s: string): (r: string)
    ensures IsTrimmed(r) && |r| <= |s|
  {
    TrimEnd(TrimStart(s))
  }

  /** Stripping a white-space prefix and then a white-space suffix leaves an
      infix between white space. */
  lemma StripsCompose(s: string, t: string, r: string)
    requires |t| <= |s| && t == s[|s| - |t|..]
    requires forall i :: 0 <= i < |s| - |t| ==> IsSpace(s[i])
    requires |r| <= |t| && r == t[..|r|]
    requires forall i :: |r| <= i < |t| ==> IsSpace(t[i])
    ensures StripsTo(s, r, |s| - |t|)
  {
    var k := |s| - |t|;
    assert r == s[k..k + |r|];
    forall i | k + |r| <= i < |s|
      ensures IsSpace(s[i])
    {
      assert s[i] == t[i - k];
    }
  }

  /** `trim` keeps the infix that starts where the leading white space ends. */
  lemma TrimStrips(s: string)
    ensures StripsTo(s, Trim(s), |s| - |TrimStart(s)|)
  {
    StripsCompose(s, TrimStart(s), TrimEnd(TrimStart(s)));
  }

  /** What `trim` keeps is the infix of `s` between a white-space prefix and
      a white-space suffix, and it is empty exactly when `s` is blank. */
  lemma TrimIsInfix(s: string)
    ensures exists k :: StripsTo(s, Trim(s), k)
    ensures Trim(s) == [] <==> IsBlank(s)
  {
    var k := |s| - |TrimStart(s)|;
    TrimStrips(s);
    if Trim(s) != [] {
      assert Trim(s)[0] == s[k];
      assert !IsSpace(s[k]);
    }
  }

  /** Trimming a string that is already trimmed changes nothing. */
  lemma TrimTrimmed(s: string)
    requires IsTrimmed(s)
    ensures Trim(s) == s
  {
  }

  /** `trim` is idempotent. */
  lemma TrimIdempotent(s: string)
    ensures Trim(Trim(s)) == Trim(s)
  {
    TrimTrimmed(Trim(s));
  }

  /** `toLowerCase` on one character, restricted to ASCII letters. */
  function LowerChar(c: char): (d: char)
    ensures 'A' <= c <= 'Z' ==> d as int == c as int + 32
    ensures !('A' <= c <= 'Z') ==> d == c
  {
    if 'A' <= c <= 'Z' then (c as int + 32) as char else c
  }

  /** `s.toLowerCase()`, restricted to ASCII letters. */
  function Lower(s: string): (r: string)
    ensures |r| == |s|
    ensures forall i :: 0 <= i < |r| ==> r[i] == LowerChar(s[i])
    ensures forall i :: 0 <= i < |r| ==> !('A' <= r[i] <= 'Z')
  {
    if s == [] then [] else [LowerChar(s[0])] + Lower(s[1..])
  }

  /** A string without upper-case ASCII letters is its own lower case. */
  lemma LowerOfLowercase(s: string)
    requires forall i :: 0 <= i < |s| ==> !('A' <= s[i] <= 'Z')
    ensures Lower(s) == s
  {
  }

  /** Lowercasing twice is lowercasing once. */
  lemma LowerIdempotent(s: string)
    ensures Lower(Lower(s)) == Lower(s)
  {
  }

  /** `needle` occurs in `hay` at position `i`. */
  predicate OccursAt(hay: string, needle: string, i: int) {
    0 <= i && i + |needle| <= |hay| && hay[i..i + |needle|] == needle
  }

  /** `hay.includes(needle)`, computed by scanning each start position. */
  function Includes(hay: string, needle: string): (b: bool)
    ensures b <==> exists i :: OccursAt(hay, needle, i)
  {
    if |needle| > |hay| then false
    else if hay[..|needle|] == needle then
      assert OccursAt(hay, needle, 0);
      true
    else
      var b := Includes(hay[1..], needle);
      assert b ==> exists i :: OccursAt(hay, needle, i) by {
        if b {
          var i :| OccursAt(hay[1..], needle, i);
          assert OccursAt(hay, needle, i + 1);
        }
      }
      assert (exists i :: OccursAt(hay, needle, i)) ==> b by {
        if exists i :: OccursAt(hay, needle, i) {
          var i :| OccursAt(hay, needle, i);
          assert i != 0;
          assert OccursAt(hay[1..], needle, i - 1);
        }
      }
      b
  }

  /** A needle found at some position is included. */
  lemma IncludesAt(hay: string, needle: string, i: int)
    requires OccursAt(hay, needle, i)
    ensures Includes(hay, needle)
  {
  }

  /** A string includes any suffix of it. */
  lemma IncludesSuffix(prefix: string, needle: string)
    ensures Includes(prefix + needle, needle)
  {
    var hay := prefix + needle;
    assert hay[|prefix|..|prefix| + |needle|] == needle;
    IncludesAt(hay, needle, |prefix|);
  }

  /** Two strings without upper-case letters join into one without them. */
  lemma NoUpperAppend(a: string, b: string)
    requires forall i :: 0 <= i < |a| ==> !('A' <= a[i] <= 'Z')
    requires forall i :: 0 <= i < |b| ==> !('A' <= b[i] <= 'Z')
    ensures forall i :: 0 <= i < |a + b| ==> !('A' <= (a + b)[i] <= 'Z')
  {
    var s := a + b;
    forall i | 0 <= i < |s| ensures !('A' <= s[i] <= 'Z') {
      if i < |a| { assert s[i] == a[i]; } else { assert s[i] == b[i - |a|]; }
    }
  }

  /** Every string includes the empty string. */
  lemma IncludesEmpty(hay: string)
    ensures Includes(hay, [])
  {
    assert OccursAt(hay, [], 0);
  }
}

=== FILE: view.dfy ===
/** The derived view of the application: the search filter, the status
    filter applied after it, and the per-status counts shown on the filter
    tabs. Counts use the search-filtered list only. */
module View {
  import opened Wrappers
  import opened Tasks
  import Text
  import Seqs
  import Store

  /** The case-insensitive substring search over title, description and
      category; an absent optional field never matches. */
  predicate MatchesSearch(t: Task, term: string) {
    var needle := Text.Lower(term);
    || Text.Includes(Text.Lower(t.title), needle)
    || (t.description.Some? && Text.Includes(Text.Lower(t.description.value), needle))
    || (t.category.Some? && Text.Includes(Text.Lower(t.category.value), needle))
  }

  function SearchPredicate(term: string): Task -> bool {
    (t: Task) => MatchesSearch(t, term)
  }

  /** The tasks the search term selects; an empty term selects every task. */
  function SearchFiltered(tasks: seq<Task>, term: string): (r: seq<Task>)
    ensures forall t: Task :: multiset(r)[t] ==
              if term == [] || MatchesSearch(t, term) then multiset(tasks)[t] else 0
    ensures Seqs.IsSubsequence(r, tasks)
  {
    if term == [] then
      Seqs.SubsequenceRefl(tasks);
      tasks
    else
      Seqs.FilterIsSubsequence(tasks, SearchPredicate(term));
      Seqs.Filter(tasks, SearchPredicate(term))
  }

  /** The status test of one filter tab. */
  predicate PassesStatus(t: Task, f: StatusFilter) {
    match f
    case All => true
    case Pending => !t.completed
    case Completed => t.completed
  }

  /** The status filter of one tab, applied to the searched tasks. */
  function ByStatus(searched: seq<Task>, f: StatusFilter): (r: seq<Task>)
    ensures forall i :: 0 <= i < |r| ==> PassesStatus(r[i], f)
    ensures forall t: Task :: multiset(r)[t] == if PassesStatus(t, f) then multiset(searched)[t] else 0
  {
    match f
    case All => searched
    case Completed => Seqs.Filter(searched, IsDone)
    case Pending => Seqs.Filter(searched, IsOpen)
  }

  /** `filteredTasks`: the search filter, then the status filter. */
  function FilteredTasks(tasks: seq<Task>, f: StatusFilter, term: string): (r: seq<Task>)
    ensures forall i :: 0 <= i < |r| ==> PassesStatus(r[i], f)
    ensures forall t: Task :: multiset(r)[t] ==
              if (term == [] || MatchesSearch(t, term)) && PassesStatus(t, f)
              then multiset(tasks)[t] else 0
  {
    ByStatus(SearchFiltered(tasks, term), f)
  }

  /** The three tab badges. */
  datatype Counts = Counts(all: nat, completed: nat, pending: nat)

  /** `taskCounts`: counts over the search-filtered list, whatever the tab. */
  function TaskCounts(tasks: seq<Task>, term: string): (c: Counts)
    ensures c.all == c.completed + c.pending
    ensures c.all <= |tasks|
  {
    var searched := SearchFiltered(tasks, term);
    Seqs.FilterPartition(searched, IsDone, IsOpen);
    Counts(|searched|, |Seqs.Filter(searched, IsDone)|, |Seqs.Filter(searched, IsOpen)|)
  }

  /** The badge of one tab. */
  function CountFor(c: Counts, f: StatusFilter): nat {
    match f
    case All => c.all
    case Completed => c.completed
    case Pending => c.pending
  }

  /** The view of a whole application state. */
  function Visible(s: Store.AppState): seq<Task> {
    FilteredTasks(s.tasks, s.currentFilter, s.searchTerm)
  }

  function Badges(s: Store.AppState): Counts {
    TaskCounts(s.tasks, s.searchTerm)
  }

  // ---------------------------------------------------------------- lemmas

  /** The visible list is a subsequence of the task list. */
  lemma FilteredIsSubsequence(tasks: seq<Task>, f: StatusFilter, term: string)
    ensures Seqs.IsSubsequence(FilteredTasks(tasks, f, term), tasks)
  {
    var searched := SearchFiltered(tasks, term);
    match f
    case All =>
    case Completed => Seqs.FilterOfSubsequence(searched, tasks, IsDone);
    case Pending => Seqs.FilterOfSubsequence(searched, tasks, IsOpen);
  }

  /** With the empty term and the `all` tab the view is the whole list, in order. */
  lemma EmptySearchShowsAll(tasks: seq<Task>)
    ensures FilteredTasks(tasks, All, []) == tasks
  {
  }

  /** The empty term matches every task, so skipping the search on an empty
      term changes no result. */
  lemma EmptyTermMatchesEverything(t: Task)
    ensures MatchesSearch(t, [])
  {
    Text.IncludesEmpty(Text.Lower(t.title));
  }

  /** The search ignores the case of the term. */
  lemma SearchIgnoresTermCase(t: Task, term: string)
    ensures MatchesSearch(t, term) == MatchesSearch(t, Text.Lower(term))
  {
    Text.LowerIdempotent(term);
  }

  /** A term found in the description selects the task, whatever the title
      and category say. */
  lemma DescriptionMatchSelects(tasks: seq<Task>, t: Task, term: string)
    requires t in tasks && t.description.Some?
    requires Text.Includes(Text.Lower(t.description.value), Text.Lower(term))
    ensures t in SearchFiltered(tasks, term)
    ensures t in FilteredTasks(tasks, if t.completed then Completed else Pending, term)
  {
    assert multiset(SearchFiltered(tasks, term))[t] == multiset(tasks)[t];
    var f := if t.completed then Completed else Pending;
    assert multiset(FilteredTasks(tasks, f, term))[t] == multiset(tasks)[t];
  }

  /** With no upper-case letters about, a needle at the end of a field is
      found by the search's case-folded `includes`. */
  lemma FoundAtEnd(prefix: string, needle: string)
    requires forall i :: 0 <= i < |prefix| ==> !('A' <= prefix[i] <= 'Z')
    requires forall i :: 0 <= i < |needle| ==> !('A' <= needle[i] <= 'Z')
    ensures Text.Includes(Text.Lower(prefix + needle), Text.Lower(needle))
  {
    Text.NoUpperAppend(prefix, needle);
    Text.LowerOfLowercase(prefix + needle);
    Text.LowerOfLowercase(needle);
    Text.IncludesSuffix(prefix, needle);
  }

  /** A lower-case term that ends a lower-case description finds its task,
      such as "bread" in the description "get bread". */
  lemma DescriptionEndMatches(t: Task, prefix: string, term: string)
    requires t.description == Some(prefix + term)
    requires forall i :: 0 <= i < |prefix| ==> !('A' <= prefix[i] <= 'Z')
    requires forall i :: 0 <= i < |term| ==> !('A' <= term[i] <= 'Z')
    ensures MatchesSearch(t, term)
  {
    FoundAtEnd(prefix, term);
  }

  /** Without a search term the badges count the whole list. */
  lemma EmptySearchCountsAll(tasks: seq<Task>)
    ensures var c := TaskCounts(tasks, []);
            c.all == |tasks| && c.completed == |Seqs.Filter(tasks, IsDone)|
            && c.pending == |tasks| - c.completed
  {
  }

  /** The length of the view equals the badge of the current tab, because
      both use the same search predicate. */
  lemma FilteredLengthIsBadge(tasks: seq<Task>, f: StatusFilter, term: string)
    ensures |FilteredTasks(tasks, f, term)| == CountFor(TaskCounts(tasks, term), f)
  {
  }

  /** Switching tabs changes no badge. */
  lemma BadgesIgnoreTab(s: Store.AppState, f: StatusFilter)
    ensures Badges(s.(currentFilter := f)) == Badges(s)
  {
  }

  /** Every handler leaves the tab and the term alone, so only the task list
      can move the badges. */
  lemma DispatchKeepsViewInputs(s: Store.AppState, intent: Intent, freshId: string, now: Time)
    ensures var r := Store.Dispatch(s, intent, freshId, now);
            r.tasks == s.tasks ==> Visible(r) == Visible(s) && Badges(r) == Badges(s)
  {
  }
}

=== FILE: wrappers.dfy ===
/** Optional values: the model's stand-in for JavaScript's `undefined` fields. */
module Wrappers {

  datatype Option<+T> = None | Some(value: T) {

    /** The wrapped value, or `default` when absent (JavaScript's `x || default`). */
    function GetOr(default: T): T {
      match this
      case Some(v) => v
      case None => default
    }
  }
}
